=== FILE: README.md ===
# Snake game core, modelled in Dafny

A model of the per-tick simulation of a turtle-graphics Snake game. The game
state is a snake (an ordered sequence of segments, each a position and a
heading; index 0 is the head, the last index the tail), a food point, a
scoreboard (an integer score plus the texts it has written) and the
`game_is_on` flag. The modules follow the program's files:

- `geometry.dfy` (`Geometry`): integer points, the four cardinal headings
  RIGHT/UP/LEFT/DOWN (0/90/180/270 degrees), moving forward along a heading,
  squared distance.
- `screen.dfy` (`Screen`): the width and height boundaries of
  `custom_game_screen.py`, `dimension // 2 - 20`.
- `snake.dfy` (`Snake`): class `GamePlay` of `game_configuration.py` —
  construction, `extend_snake`, `move_snake` and `up`/`down`/`left`/`right`.
  Construction and movement are each given twice: a declarative definition
  (`Construct`, `Move`) and a method that follows the loops of
  `_construct_snake` and `move_snake` step by step (`ConstructSnake`,
  `MoveSnake`), proved to compute the same thing.
- `food.dfy` (`Food`): `Food.refresh`, with `random.randint` modelled as a
  function of a caller-supplied draw.
- `scoreboard.dfy` (`Scoreboard`): the score, `update_scoreboard`,
  `increase_score`, `game_over`, and the decimal text of the score.
- `game.dfy` (`SnakeGame`): game construction and `play`, one tick: move,
  then the food, wall and body tests, all against the moved head.
- `mainloop.dfy` (`MainLoop`): the driver loop of `main.py` — key presses
  between ticks, and ticks only while `game_is_on`.
- `wrappers.dfy` (`Wrappers`): `Option` and `Result`, standing for the
  exceptions the Python code raises.

Distances are compared squared: "distance < 15" is `Dist2 < 225` and
"distance < 10" is `Dist2 < 100`, which is exact for integer coordinates.
Dafny's `/` with divisor 2 is Python's `//`.

Three behaviours of the Python code that the model keeps:

- Heading propagation. `move_snake`'s forward loop reads `segments[i-1]`
  after overwriting it, so after every move all segments carry the head's
  heading; no body segment lags a tick behind. `MoveSnake` proves this.
- Food placement. `Food.refresh` raises ValueError from `randint` when a
  boundary is negative, because the range is then empty. `Refresh` returns
  `None` there, and `NewGame` reports `EmptyFoodRange`.
- A short step. `ShortStepEndsTick` needs -10 < d < 10. With a step of -10
  or less the head moves backward at least 10 units away from segment 1,
  which is not < 10, so the body test does not fire for segment 1.

## Model

| member | source | states |
|---|---|---|
| Geometry.Heading.Degrees | game_configuration.py:8-11 | every heading is a whole multiple of 90 degrees in `[0, 360)` |
| Geometry.AdvanceAlongDegrees | game_configuration.py:8-11 | moving forward `d` along a heading is moving by `d * (cos θ, sin θ)` for its angle θ in degrees; with `Advance`'s direction clauses this fixes RIGHT, UP, LEFT and DOWN to 0, 90, 180 and 270 |
| Geometry.Heading.Opposite | game_configuration.py:142-168 | the heading each command's guard tests is its own heading plus 180 degrees: DOWN for UP, UP for DOWN, RIGHT for LEFT, LEFT for RIGHT |
| Geometry.Advance | game_configuration.py:140 | `forward(d)` along a cardinal heading moves the point `\|d\|` along one axis only, keeping `y` for headings 0/180 and `x` for 90/270; for `d > 0` it moves toward +x, +y, -x or -y exactly when the heading is 0, 90, 180 or 270, and for `d < 0` the other way |
| Geometry.AdvanceDistance | game_configuration.py:140 | the straight-line length of a forward move is the distance moved (squared distance `d*d`) |
| Screen.HeightBoundary | custom_game_screen.py:36-43 | the height boundary `b` is `floor(height / 2) - 20`: `2(b + 20) <= height < 2(b + 20) + 2` |
| Screen.WidthBoundary | custom_game_screen.py:45-52 | the width boundary `b` is `floor(width / 2) - 20`: `2(b + 20) <= width < 2(b + 20) + 2` |
| Screen.PlayableIff | custom_game_screen.py:36-52 | both boundaries are non-negative exactly when width and height are at least 40, and exactly when the origin lies inside the boundary |
| Screen.DefaultBoundaries | custom_game_screen.py:22-52 | the default 600 x 600 screen has both boundaries 280 |
| Screen.OddDimensionRoundsDown | custom_game_screen.py:36-52 | dimensions `2k` and `2k + 1` give the same boundary, `k - 20` |
| Screen.Dimension601RoundsDown | custom_game_screen.py:36-52 | a 601 x 601 screen has the same boundaries as the 600 x 600 one |
| Screen.BoundariesMonotone | custom_game_screen.py:36-52 | a larger dimension never gives a smaller boundary |
| Snake.ConstructSnake | game_configuration.py:81-98 | following the loop of `_construct_snake`: fails (`_construct_snake` raises IndexError at `segments[0]`) exactly when `nr_segments <= 0`; otherwise exactly `nr_segments` segments with segment `k` at `(-20k, 0)`, the head at the origin, the tail at `(-20(n-1), 0)`, independent of the step distance |
| Snake.Extend | game_configuration.py:100-112 | the body grows by exactly one; all earlier segments are unchanged; the new tail is on the old tail's position, facing 0 as a fresh turtle does |
| Snake.MoveSnake | game_configuration.py:114-140 | following the two loops of `move_snake`: the length is kept; every segment `i >= 1` takes segment `i-1`'s pre-move position; every segment ends up with the head's heading; the head moves exactly `snake_distance` along its heading |
| Snake.Turn | game_configuration.py:142-168 | a direction command sets the head's heading unless it faces the opposite way, in which case nothing changes; it touches nothing but the head's heading, and never reverses the head in one step |
| Snake.TurnUp | game_configuration.py:142-147 | `up` gives heading 90 unless the heading is 270, when it is a no-op |
| Snake.TurnDown | game_configuration.py:149-154 | `down` gives heading 270 unless the heading is 90, when it is a no-op |
| Snake.TurnLeft | game_configuration.py:156-161 | `left` gives heading 180 unless the heading is 0, when it is a no-op |
| Snake.TurnRight | game_configuration.py:163-168 | `right` gives heading 0 unless the heading is 180, when it is a no-op |
| Snake.TurnIdempotent | game_configuration.py:142-168 | giving the same direction command twice is the same as giving it once |
| Snake.TwoTurnsReverse | game_configuration.py:142-161 | the guard looks only at the current heading: facing 0, `up` then `left` leaves the head facing 180, the reverse |
| Food.RandInt | game_configuration.py:42-43 | `randint(lo, hi)` fails exactly when `lo > hi` and otherwise lies in `[lo, hi]` |
| Food.RandIntCoversRange | game_configuration.py:42-43 | every value of a non-empty range is produced by some draw |
| Food.Refresh | game_configuration.py:38-44 | the new food position has `x` in `[-wb, wb]` and `y` in `[-hb, hb]`; refresh fails exactly when a boundary is negative |
| Food.RefreshCoversBoundary | game_configuration.py:38-44 | every point inside the boundary is a possible food position |
| Scoreboard.Decimal | scoreboard.py:47 | the decimal text of a score is non-empty, all digits, and has no leading zero |
| Scoreboard.DecimalRoundTrip | scoreboard.py:47 | reading the decimal text of `n` back as digits gives `n` |
| Scoreboard.ScoreText | scoreboard.py:47 | the score text is `"Score: "` followed by digits that denote the score, with no leading zero, so it is exactly the decimal `f"Score: {score}"` writes |
| Scoreboard.ScoreTextInjective | scoreboard.py:47 | two scores with the same score text are equal |
| Scoreboard.CanonicalDigits | scoreboard.py:47 | a digit string without leading zeros is the decimal text of the number it denotes |
| Scoreboard.DenotesScoreIff | scoreboard.py:47 | a text is `"Score: "` followed by the leading-zero-free digits of `n` exactly when it is `f"Score: {n}"` |
| Scoreboard.UpdateScoreboard | scoreboard.py:42-47 | everything written before is cleared; exactly one text is shown, at the turtle's position, and it is `"Score: "` followed by the canonical decimal of the unchanged score |
| Scoreboard.NewBoard | scoreboard.py:20-40 | the score starts at 0, the turtle stands at `(0, heightBoundary - 40)`, `"Score: 0"` is written there, and the board shows its score |
| Scoreboard.IncreaseScore | scoreboard.py:56-61 | the score grows by exactly 1 and afterwards the only text shown is `"Score: "` followed by the decimal of the new score, at the unchanged turtle position |
| Scoreboard.GameOver | scoreboard.py:49-54 | the score is unchanged; every text shown before stays, in place, and `"GAME OVER"` at `(0, 0)` comes after them, so a board showing its score still does |
| Scoreboard.GameOverRepeated | scoreboard.py:49-54 | `k` calls of `game_over` leave the score unchanged and add exactly `k` `"GAME OVER"` texts at the origin |
| SnakeGame.NewGame | snake_game.py:16-28 | building a game fails with `NoSegments` iff `nr_segments <= 0`, else with `EmptyFoodRange` iff a boundary is negative; otherwise the game is running, score 0, the snake laid out as constructed, the food inside the boundary |
| SnakeGame.HitsWallIff | snake_game.py:53-55 | the wall test fires exactly when the head is strictly outside the closed boundary rectangle; a head on the boundary keeps playing |
| SnakeGame.FoodStep | snake_game.py:47-51 | near the food (squared distance < 225) the snake is extended, the food lands inside the boundary and the score increases; otherwise nothing changes |
| SnakeGame.WallStep | snake_game.py:53-57 | outside the boundary the game stops and `game_over` is called once; inside, nothing changes |
| SnakeGame.CheckBody | snake_game.py:59-63 | the game keeps running only if no body segment is within squared distance 100 of the head; one `game_over` per such segment, with no early exit |
| SnakeGame.CollisionSteps | snake_game.py:53-63 | the wall test then the body test, both against the moved head: the game keeps running iff it was running, the head is inside the boundary and no segment from index 1 on is within squared distance 100; the score is untouched; the texts gain one `"GAME OVER"` for the wall plus one per colliding segment |
| SnakeGame.Tick | snake_game.py:40-63 | every test uses the head after the move; eating grows the snake and the score by exactly one, otherwise both are unchanged; the game runs afterwards iff it ran before and neither a wall nor a body segment was hit; the texts shown gain one `"GAME OVER"` for the wall plus one per colliding segment; length minus score is kept |
| SnakeGame.TickNeverRestarts | snake_game.py:54-63 | a stopped game stays stopped: `play` only ever assigns false |
| SnakeGame.TickScoreMonotone | snake_game.py:47-51 | a tick raises the score by 0 or 1, never lowers it |
| SnakeGame.TickShowsScore | snake_game.py:47-63 | a tick keeps the score text as the scoreboard's first text: eating rewrites it with the new score, and game-over texts only go after it |
| SnakeGame.ShortStepEndsTick | snake_game.py:45-63 | with a step strictly between -10 and 10 and at least two segments, every tick ends the game: segment 1 lands on the head's old spot |
| SnakeGame.ShortStepEndsFirstTick | snake_game.py:45-63 | in particular a new game with such a step ends on its first tick |
| SnakeGame.DefaultFirstTick | snake_game.py:40-63 | the default game's first tick moves the head to `(20, 0)` and keeps the game running, wherever the food is |
| MainLoop.Press | snake_game.py:30-38 | the Up, Down, Left and Right keys run `up`, `down`, `left` and `right`: the key's heading is taken unless the head faces the opposite way, and only the head's heading changes |
| MainLoop.Steer | snake_game.py:30-38 | any sequence of key presses changes nothing but the head's heading |
| MainLoop.Step | main.py:13-16 | one loop pass keeps the state valid, never restarts the game, never lowers the score, keeps length minus score, and keeps the score text shown |
| MainLoop.Run | main.py:13-16 | the loop leaves a stopped game untouched, never restarts it, never lowers the score or shortens the snake, keeps length minus score, and keeps the score text shown |
| MainLoop.GameLengthTracksScore | snake_game.py:47-51 | over a whole game the snake has `nr_segments` segments plus one per point scored |
| MainLoop.GameShowsScore | scoreboard.py:47 | after any number of frames from a new game, the scoreboard's first text is exactly `f"Score: {score}"` |
| MainLoop.RunStopsForGood | main.py:13-16 | once the game has stopped, further frames change nothing |

## Left out

- Configuration prompts (`utils.py`, `get_user_input`): screen size, step
  distance and segment count are plain fields of `Config`. Invalid input
  falling back to defaults is not modelled.
- Rendering: shapes, colours, `penup`, `speed`, `hideturtle`, `tracer`,
  `bgcolor`, `title`, `setup` and fonts or alignment of `write` belong to
  the graphics library. Texts are kept only as (position, string) records.
- `screen.update` and `exitonclick` in `main.py`: display only.
- MainLoop.Run: has no tick interval. `snake_speed` is any float the prompt
  accepts, and a negative value makes `time.sleep` in `main.py` raise
  ValueError right after the first `play()`, ending the program. `Run` has
  no speed and keeps ticking for every frame.
- Keyboard event dispatch: key presses are a list given per frame and
  applied before the tick, not asynchronous callbacks.
- Randomness: `random.randint` takes a caller-supplied draw instead of a
  random number.
- Floating point: turtle coordinates and headings are floats, and `forward`
  goes through sine and cosine. The model uses integer coordinates and only
  the four cardinal headings, so the rounding noise of the float version is
  absent.
- The `if __name__ == "__main__"` demo blocks in each file.

=== FILE: food.dfy ===
/**
 Food placement (game_configuration.py, class Food). The random draws are
 supplied by the caller: `RandInt` maps an arbitrary draw onto the inclusive
 range the way a uniform `random.randint` chooses one value of it.
 */
module Food {
  import opened Wrappers
  import opened Geometry
  import opened Screen

  /** `random.randint(lo, hi)` for a given draw; it raises (None) on an empty range. */
  function RandInt(lo: int, hi: int, draw: nat): (r: Option<int>)
    ensures r.None? <==> lo > hi
    ensures r.Some? ==> lo <= r.value <= hi
  {
    if lo > hi then None else Some(lo + draw % (hi - lo + 1))
  }

  /** Every value of a non-empty range is produced by some draw. */
  lemma RandIntCoversRange(lo: int, hi: int, v: int)
    requires lo <= v <= hi
    ensures exists draw: nat :: RandInt(lo, hi, draw) == Some(v)
  {
    var draw: nat := v - lo;
    SmallModulus(draw, hi - lo + 1);
    assert RandInt(lo, hi, draw) == Some(v);
  }

  lemma SmallModulus(a: nat, m: nat)
    requires a < m
    ensures a % m == a
  {
  }

  /** `Food.refresh`: a new food position inside the boundary, or a failure when a
      boundary is negative. */
  function Refresh(screen: GameScreen, drawX: nat, drawY: nat): (r: Option<Point>)
    ensures r.None? <==> !Playable(screen)
    ensures r.Some? ==> InsideBoundary(screen, r.value)
  {
    var x := RandInt(-WidthBoundary(screen), WidthBoundary(screen), drawX);
    var y := RandInt(-HeightBoundary(screen), HeightBoundary(screen), drawY);
    if x.None? || y.None? then None else Some(Point(x.value, y.value))
  }

  /** Every point inside the boundary is a possible food position. */
  lemma RefreshCoversBoundary(screen: GameScreen, p: Point)
    requires InsideBoundary(screen, p)
    ensures exists dx: nat, dy: nat :: Refresh(screen, dx, dy) == Some(p)
  {
    var dx: nat := p.x + WidthBoundary(screen);
    var dy: nat := p.y + HeightBoundary(screen);
    SmallModulus(dx, 2 * WidthBoundary(screen) + 1);
    SmallModulus(dy, 2 * HeightBoundary(screen) + 1);
    assert RandInt(-WidthBoundary(screen), WidthBoundary(screen), dx) == Some(p.x);
    assert RandInt(-HeightBoundary(screen), HeightBoundary(screen), dy) == Some(p.y);
    assert Refresh(screen, dx, dy) == Some(p);
  }
}

=== FILE: game.dfy ===
/**
 One tick of the game (snake_game.py, class SnakeGame): move the snake, then
 test the moved head against the food, the walls and every body segment.
 */
module SnakeGame {
  import opened Wrappers
  import opened Geometry
  import opened Screen
  import opened Snake
  import opened Food
  import opened Scoreboard

  /** The head eats food closer than this. */
  const FoodRadius := 15
  /** The head collides with a body segment closer than this. */
  const BodyRadius := 10

  /** The values the game asks for at start-up that the simulation depends on. */
  datatype Config = Config(screen: GameScreen, snakeDistance: int, nrSegments: int)

  const DefaultConfig := Config(DefaultScreen, 20, 3)

  /** Everything a tick reads or writes; `running` is `game_is_on`. */
  datatype State = State(
    screen: GameScreen,
    distance: int,
    snake: Body,
    food: Point,
    board: Board,
    running: bool)

  /** Why the game cannot be built: no segment to be the head (IndexError), or a
      negative boundary leaves no range to place the food in (ValueError). */
  datatype InitError = NoSegments | EmptyFoodRange

  /** What every state built by `NewGame` satisfies and every tick keeps. */
  predicate Valid(g: State) {
    |g.snake| >= 1 && Playable(g.screen)
  }

  /** `SnakeGame.__init__`: `game_is_on` set, snake built, scoreboard built, food placed. */
  function NewGame(c: Config, drawX: nat, drawY: nat): (r: Result<State, InitError>)
    ensures r.Err? <==> c.nrSegments <= 0 || !Playable(c.screen)
    ensures r.Err? ==> (r.error == NoSegments <==> c.nrSegments <= 0)
    ensures r.Ok? ==> Valid(r.value) && r.value.running
    ensures r.Ok? ==> r.value.screen == c.screen && r.value.distance == c.snakeDistance
    ensures r.Ok? ==> |r.value.snake| == c.nrSegments
    ensures r.Ok? ==> forall k :: 0 <= k < |r.value.snake| ==> r.value.snake[k] == LaidOut(k)
    ensures r.Ok? ==> r.value.board == NewBoard(c.screen) && r.value.board.score == 0
    ensures r.Ok? ==> InsideBoundary(c.screen, r.value.food)
  {
    var snake := Construct(c.nrSegments);
    if snake.None? then Err(NoSegments)
    else
      var board := NewBoard(c.screen);
      var food := Refresh(c.screen, drawX, drawY);
      if food.None? then Err(EmptyFoodRange)
      else Ok(State(c.screen, c.snakeDistance, snake.value, food.value, board, true))
  }

  predicate NearFood(head: Point, food: Point) {
    Dist2(head, food) < FoodRadius * FoodRadius
  }

  /** The wall test of `play`: strictly beyond a boundary in either coordinate. */
  predicate HitsWall(screen: GameScreen, head: Point) {
    Abs(head.x) > WidthBoundary(screen) || Abs(head.y) > HeightBoundary(screen)
  }

  predicate HitsSegment(head: Point, seg: Segment) {
    Dist2(head, seg.pos) < BodyRadius * BodyRadius
  }

  /** A head hits a wall exactly when it leaves the closed boundary rectangle, so a
      head lying on the boundary keeps playing. */
  lemma HitsWallIff(screen: GameScreen, p: Point)
    ensures HitsWall(screen, p) <==> !InsideBoundary(screen, p)
  {
  }

  /** For each body segment, whether it is near the head. */
  function Hits(head: Point, body: Body): (hits: seq<bool>) {
    seq(|body|, i requires 0 <= i < |body| => HitsSegment(head, body[i]))
  }

  /** How many body segments are near the head. */
  function HitCount(head: Point, body: Body): (n: nat) {
    multiset(Hits(head, body))[true]
  }

  lemma HitCountStep(head: Point, body: Body)
    requires |body| >= 1
    ensures HitCount(head, body) == (if HitsSegment(head, body[0]) then 1 else 0) + HitCount(head, body[1..])
  {
    assert Hits(head, body) == [HitsSegment(head, body[0])] + Hits(head, body[1..]);
  }

  /** The tail-collision loop of `play`: every body segment near the head stops the
      game and makes one `game_over` call; there is no early exit. */
  function CheckBody(head: Point, body: Body, board: Board, running: bool): (r: (Board, bool))
    ensures r.1 <==> running && forall i :: 0 <= i < |body| ==> !HitsSegment(head, body[i])
    ensures r.0 == GameOverRepeated(board, HitCount(head, body))
    decreases |body|
  {
    if |body| == 0 then (board, running)
    else
      HitCountStep(head, body);
      if HitsSegment(head, body[0]) then CheckBody(head, body[1..], GameOver(board), false)
      else CheckBody(head, body[1..], board, running)
  }

  /** The head position every test of a tick uses: the head after the move. */
  function TickHead(g: State): (head: Point)
    requires |g.snake| >= 1
  {
    Head(Move(g.snake, g.distance)).pos
  }

  /** Whether the tick eats the food. */
  predicate Eats(g: State)
    requires |g.snake| >= 1
  {
    NearFood(TickHead(g), g.food)
  }

  /** What the food test of a tick leaves behind. */
  datatype Fed = Fed(snake: Body, food: Point, board: Board)

  /** The food test of `play`: if the moved head is near the food, refresh the food,
      extend the snake and increase the score. */
  function FoodStep(screen: GameScreen, moved: Body, food: Point, board: Board, drawX: nat, drawY: nat): (f: Fed)
    requires Playable(screen) && |moved| >= 1
    ensures NearFood(Head(moved).pos, food) ==>
      && f.snake == Extend(moved)
      && InsideBoundary(screen, f.food)
      && f.board == IncreaseScore(board)
    ensures !NearFood(Head(moved).pos, food) ==> f == Fed(moved, food, board)
  {
    if NearFood(Head(moved).pos, food) then
      Fed(Extend(moved), Refresh(screen, drawX, drawY).value, IncreaseScore(board))
    else Fed(moved, food, board)
  }

  /** The wall test of `play`: stop and write "GAME OVER" once if the head is out. */
  function WallStep(screen: GameScreen, head: Point, board: Board, running: bool): (r: (Board, bool))
    ensures r.1 <==> running && InsideBoundary(screen, head)
    ensures r.0 == GameOverRepeated(board, if HitsWall(screen, head) then 1 else 0)
  {
    HitsWallIff(screen, head);
    if HitsWall(screen, head) then (GameOver(board), false) else (board, running)
  }

  /** The wall test and then the body test of `play`, both against `head`, over the
      snake as the food test left it. */
  function CollisionSteps(screen: GameScreen, head: Point, snake: Body, board: Board, running: bool): (r: (Board, bool))
    requires |snake| >= 1
    ensures r.1 <==>
      && running
      && !HitsWall(screen, head)
      && forall i :: 1 <= i < |snake| ==> !HitsSegment(head, snake[i])
    ensures r.0.score == board.score
    ensures r.0.shown == board.shown
      + GameOverTexts((if HitsWall(screen, head) then 1 else 0) + HitCount(head, snake[1..]))
  {
    var walled := WallStep(screen, head, board, running);
    var body := snake[1..];
    var checked := CheckBody(head, body, walled.0, walled.1);
    HitsWallIff(screen, head);
    // the body test over `segments[1:]` is the test over indices 1.. of the snake
    assert checked.1 <==> walled.1 && forall i :: 1 <= i < |snake| ==> !HitsSegment(head, snake[i]) by {
      assert forall i :: 1 <= i < |snake| ==> snake[i] == body[i - 1];
    }
    var wallCount := if HitsWall(screen, head) then 1 else 0;
    GameOverTextsAdd(wallCount, HitCount(head, body));
    checked
  }

  /** `play`: one tick. The draws are the random numbers `Food.refresh` uses if the
      food is eaten. */
  function Tick(g: State, drawX: nat, drawY: nat): (r: State)
    requires Valid(g)
    ensures Valid(r)
    ensures r.screen == g.screen && r.distance == g.distance
    ensures Head(r.snake).pos == TickHead(g)
    // food: grow by one and score one, or change neither
    ensures Eats(g) ==> r.snake == Extend(Move(g.snake, g.distance))
    ensures Eats(g) ==> r.board.score == g.board.score + 1 && InsideBoundary(g.screen, r.food)
    ensures !Eats(g) ==> r.snake == Move(g.snake, g.distance) && r.food == g.food
    ensures !Eats(g) ==> r.board.score == g.board.score
    ensures |r.snake| - r.board.score == |g.snake| - g.board.score
    // walls and body: the game stops on any collision, and never restarts
    ensures r.running <==>
      && g.running
      && !HitsWall(g.screen, TickHead(g))
      && forall i :: 1 <= i < |r.snake| ==> !HitsSegment(TickHead(g), r.snake[i])
    // one "GAME OVER" for the wall plus one per colliding body segment
    ensures r.board.shown ==
      (if Eats(g) then [Text(g.board.pen, ScoreText(g.board.score + 1))] else g.board.shown)
      + GameOverTexts((if HitsWall(g.screen, TickHead(g)) then 1 else 0) + HitCount(TickHead(g), r.snake[1..]))
  {
    var moved := Move(g.snake, g.distance);
    var head := Head(moved).pos;
    var fed := FoodStep(g.screen, moved, g.food, g.board, drawX, drawY);
    var checked := CollisionSteps(g.screen, head, fed.snake, fed.board, g.running);
    State(g.screen, g.distance, fed.snake, fed.food, checked.0, checked.1)
  }

  /** `game_is_on` only ever goes from true to false. */
  lemma TickNeverRestarts(g: State, drawX: nat, drawY: nat)
    requires Valid(g) && !g.running
    ensures !Tick(g, drawX, drawY).running
  {
  }

  /** After every tick the scoreboard's oldest text is still "Score: " and the current
      score: eating rewrites it, and "GAME OVER" texts only go after it. */
  lemma TickShowsScore(g: State, drawX: nat, drawY: nat)
    requires Valid(g)
    ensures ShowsScore(g.board) ==> ShowsScore(Tick(g, drawX, drawY).board)
  {
    if Eats(g) {
      DenotesScoreIff(ScoreText(g.board.score + 1), g.board.score + 1);
    }
  }

  /** The score never decreases, and `game_over` leaves it alone. */
  lemma TickScoreMonotone(g: State, drawX: nat, drawY: nat)
    requires Valid(g)
    ensures g.board.score <= Tick(g, drawX, drawY).board.score <= g.board.score + 1
  {
  }

  lemma ShortSquare(d: int)
    requires -BodyRadius < d < BodyRadius
    ensures d * d < BodyRadius * BodyRadius
  {
    var a := Abs(d);
    assert a * a <= 9 * a <= 81;
    assert d * d == a * a;
  }

  /** With a step shorter than the body radius and at least two segments, every tick
      ends the game: segment 1 moves onto the head's old spot, which is closer to
      the moved head than the radius. */
  lemma ShortStepEndsTick(g: State, drawX: nat, drawY: nat)
    requires Valid(g) && |g.snake| >= 2
    requires -BodyRadius < g.distance < BodyRadius
    ensures !Tick(g, drawX, drawY).running
  {
    var r := Tick(g, drawX, drawY);
    var moved := Move(g.snake, g.distance);
    assert r.snake[1] == moved[1] == Segment(g.snake[0].pos, g.snake[0].heading);
    ShortStepLandsNear(g.snake[0].pos, g.snake[0].heading, g.distance);
  }

  lemma ShortStepLandsNear(p: Point, h: Heading, d: int)
    requires -BodyRadius < d < BodyRadius
    ensures HitsSegment(Advance(p, h, d), Segment(p, h))
  {
    AdvanceDistance(p, h, d);
    ShortSquare(d);
  }

  /** In particular a freshly built game with such a step ends on its first tick. */
  lemma ShortStepEndsFirstTick(c: Config, drawX: nat, drawY: nat, foodX: nat, foodY: nat)
    requires c.nrSegments >= 2 && -BodyRadius < c.snakeDistance < BodyRadius
    requires NewGame(c, drawX, drawY).Ok?
    ensures !Tick(NewGame(c, drawX, drawY).value, foodX, foodY).running
  {
    ShortStepEndsTick(NewGame(c, drawX, drawY).value, foodX, foodY);
  }

  lemma FarBehind(x: int, h: Heading)
    requires x <= 0
    ensures !HitsSegment(Point(20, 0), Segment(Point(x, 0), h))
  {
    assert (20 - x) * (20 - x) >= 20 * (20 - x) >= 400;
  }

  /** A fresh default game is still on after its first tick, wherever the food is:
      the head moves right to (20, 0) and every other segment stays at x <= 0. */
  lemma DefaultFirstTick(drawX: nat, drawY: nat, foodX: nat, foodY: nat)
    requires NewGame(DefaultConfig, drawX, drawY).Ok?
    ensures var g := NewGame(DefaultConfig, drawX, drawY).value;
      && TickHead(g) == Point(20, 0)
      && Tick(g, foodX, foodY).running
  {
    var g := NewGame(DefaultConfig, drawX, drawY).value;
    assert g.snake[0] == LaidOut(0) && g.snake[1] == LaidOut(1) && g.snake[2] == LaidOut(2);
    assert g.distance == 20 && g.snake[0] == Segment(Origin, Right);
    var moved := Move(g.snake, g.distance);
    assert moved[0] == Segment(Advance(Origin, Right, 20), Right);
    assert |moved| == 3 && moved[0].pos == Point(20, 0) && moved[1].pos == Origin && moved[2].pos == Point(-20, 0);
    assert TickHead(g) == Point(20, 0);
    var r := Tick(g, foodX, foodY);
    forall i | 1 <= i < |r.snake|
      ensures !HitsSegment(Point(20, 0), r.snake[i])
    {
      if i < 3 {
        assert r.snake[i] == moved[i];
      } else {
        assert r.snake[i].pos == moved[2].pos;
      }
      FarBehind(r.snake[i].pos.x, r.snake[i].heading);
    }
  }
}

=== FILE: geometry.dfy ===
/**
 Integer plane geometry used by the snake game: points, the four cardinal
 turtle headings, moving forward along a heading, and squared distance.
 */
module Geometry {

  datatype Point = Point(x: int, y: int)

  const Origin := Point(0, 0)

  /** The direction constants RIGHT, UP, LEFT and DOWN of game_configuration.py. */
  datatype Heading = Right | Up | Left | Down {

    /** The turtle heading in degrees: counter-clockwise from the positive x-axis. */
    function Degrees(): (d: int)
      ensures 0 <= d < 360 && d % 90 == 0
    {
      match this
      case Right => 0
      case Up => 90
      case Left => 180
      case Down => 270
    }

    /** The heading that points the other way. */
    function Opposite(): (o: Heading)
      ensures o.Degrees() == (Degrees() + 180) % 360
    {
      match this
      case Right => Left
      case Up => Down
      case Left => Right
      case Down => Up
    }
  }

  function Abs(n: int): (a: nat)
    ensures a == n || a == -n
  {
    if n < 0 then -n else n
  }

  /** Squared Euclidean distance; comparing it with r*r compares the distance with r. */
  function Dist2(p: Point, q: Point): (d: nat)
    ensures d == 0 <==> p == q
  {
    var dx := p.x - q.x;
    var dy := p.y - q.y;
    dx * dx + dy * dy
  }

  /** Where a turtle at `p` facing `h` ends up after `forward(distance)`. */
  function Advance(p: Point, h: Heading, distance: int): (q: Point)
    ensures Abs(q.x - p.x) + Abs(q.y - p.y) == Abs(distance)
    ensures h == Right || h == Left ==> q.y == p.y
    ensures h == Up || h == Down ==> q.x == p.x
    ensures distance > 0 ==>
      && (h == Right <==> q.x > p.x)
      && (h == Up <==> q.y > p.y)
      && (h == Left <==> q.x < p.x)
      && (h == Down <==> q.y < p.y)
    ensures distance < 0 ==>
      && (h == Right <==> q.x < p.x)
      && (h == Up <==> q.y < p.y)
      && (h == Left <==> q.x > p.x)
      && (h == Down <==> q.y > p.y)
  {
    match h
    case Right => Point(p.x + distance, p.y)
    case Up => Point(p.x, p.y + distance)
    case Left => Point(p.x - distance, p.y)
    case Down => Point(p.x, p.y - distance)
  }

  /** Cosine of a whole number of degrees, for the multiples of 90 a heading can be. */
  function CosDeg(deg: int): (c: int)
    ensures -1 <= c <= 1
  {
    if deg == 0 then 1 else if deg == 180 then -1 else 0
  }

  /** Sine of a whole number of degrees, for the multiples of 90 a heading can be. */
  function SinDeg(deg: int): (s: int)
    ensures -1 <= s <= 1
  {
    if deg == 90 then 1 else if deg == 270 then -1 else 0
  }

  /** Turtle `forward(d)` moves by `d * (cos θ, sin θ)` for the heading's angle θ in
      degrees; `Advance` is that move, so the degree table of `Degrees` is what
      gives each direction constant its meaning. */
  lemma AdvanceAlongDegrees(p: Point, h: Heading, d: int)
    ensures Advance(p, h, d) == Point(p.x + d * CosDeg(h.Degrees()), p.y + d * SinDeg(h.Degrees()))
  {
  }

  /** The straight-line length of a move is the distance moved. */
  lemma AdvanceDistance(p: Point, h: Heading, d: int)
    ensures Dist2(p, Advance(p, h, d)) == d * d
    ensures Dist2(Advance(p, h, d), p) == d * d
  {
  }
}

=== FILE: mainloop.dfy ===
/**
 The driver of main.py: while `game_is_on`, process the key presses that arrived
 since the last frame, then run one tick. Redraws and the sleep between ticks
 are not modelled.
 */
module MainLoop {
  import opened Geometry
  import opened Snake
  import opened SnakeGame
  import opened Scoreboard

  /** The four arrow keys bound in `_initialize_movement_controls`. */
  datatype Key = UpKey | DownKey | LeftKey | RightKey

  /** What happens between two ticks: the keys pressed, in order, and the random
      draws the tick's food refresh would use. */
  datatype Frame = Frame(keys: seq<Key>, drawX: nat, drawY: nat)

  /** The heading of the direction command each key is bound to. */
  function KeyHeading(k: Key): (h: Heading) {
    match k
    case UpKey => Up
    case DownKey => Down
    case LeftKey => Left
    case RightKey => Right
  }

  /** The direction command bound to a key. */
  function Press(s: Body, k: Key): (r: Body)
    requires |s| >= 1
    ensures r == Turn(s, KeyHeading(k))
    ensures |r| == |s| && r[1..] == s[1..] && Head(r).pos == Head(s).pos
  {
    match k
    case UpKey => TurnUp(s)
    case DownKey => TurnDown(s)
    case LeftKey => TurnLeft(s)
    case RightKey => TurnRight(s)
  }

  /** Key presses touch only the head's heading. */
  function Steer(g: State, keys: seq<Key>): (r: State)
    requires Valid(g)
    ensures Valid(r)
    ensures r == g.(snake := r.snake)
    ensures |r.snake| == |g.snake| && r.snake[1..] == g.snake[1..]
    ensures Head(r.snake).pos == Head(g.snake).pos
    decreases |keys|
  {
    if |keys| == 0 then g
    else Steer(g.(snake := Press(g.snake, keys[0])), keys[1..])
  }

  /** One pass of the loop body: the frame's key presses, then `play`. */
  function Step(g: State, f: Frame): (r: State)
    requires Valid(g)
    ensures Valid(r)
    ensures r.screen == g.screen && r.distance == g.distance
    ensures r.running ==> g.running
    ensures g.board.score <= r.board.score
    ensures |r.snake| - r.board.score == |g.snake| - g.board.score
    ensures ShowsScore(g.board) ==> ShowsScore(r.board)
  {
    var steered := Steer(g, f.keys);
    TickShowsScore(steered, f.drawX, f.drawY);
    Tick(steered, f.drawX, f.drawY)
  }

  /** The `while snake_game.game_is_on` loop over the given frames. */
  function Run(g: State, frames: seq<Frame>): (r: State)
    requires Valid(g)
    ensures Valid(r)
    ensures r.screen == g.screen && r.distance == g.distance
    ensures !g.running ==> r == g
    ensures r.running ==> g.running
    ensures g.board.score <= r.board.score
    ensures |g.snake| <= |r.snake|
    ensures |r.snake| - r.board.score == |g.snake| - g.board.score
    ensures ShowsScore(g.board) ==> ShowsScore(r.board)
    decreases |frames|
  {
    if !g.running || |frames| == 0 then g
    else
      Run(Step(g, frames[0]), frames[1..])
  }

  /** A whole game from its start: the snake is always `nrSegments` segments plus
      one per point scored. */
  lemma GameLengthTracksScore(c: Config, drawX: nat, drawY: nat, frames: seq<Frame>)
    requires NewGame(c, drawX, drawY).Ok?
    ensures var r := Run(NewGame(c, drawX, drawY).value, frames);
      |r.snake| == c.nrSegments + r.board.score
  {
  }

  /** Throughout a game the scoreboard shows exactly `f"Score: {score}"` first. */
  lemma GameShowsScore(c: Config, drawX: nat, drawY: nat, frames: seq<Frame>)
    requires NewGame(c, drawX, drawY).Ok?
    ensures var r := Run(NewGame(c, drawX, drawY).value, frames);
      r.board.shown[0].content == ScoreText(r.board.score)
  {
    var r := Run(NewGame(c, drawX, drawY).value, frames);
    DenotesScoreIff(r.board.shown[0].content, r.board.score);
  }

  /** Once a tick has stopped the game, no later frame changes anything. */
  lemma {:induction false} RunStopsForGood(g: State, frames: seq<Frame>, more: seq<Frame>)
    requires Valid(g)
    ensures !Run(g, frames).running ==> Run(g, frames + more) == Run(g, frames)
    decreases |frames|
  {
    if g.running && |frames| > 0 {
      assert (frames + more)[0] == frames[0];
      assert (frames + more)[1..] == frames[1..] + more;
      RunStopsForGood(Step(g, frames[0]), frames[1..], more);
    }
  }
}

=== FILE: scoreboard.dfy ===
/**
 The scoreboard (scoreboard.py): an integer score and the texts the scoreboard
 turtle has written since it last cleared. Fonts, alignment and colour are
 rendering details and are not modelled.
 */
module Scoreboard {
  import opened Geometry
  import opened Screen

  const GameOverText := "GAME OVER"
  const ScorePrefix := "Score: "

  /** How far below the height boundary the score text sits. */
  const ScoreDrop := 40

  /** A text written at a position. */
  datatype Text = Text(at: Point, content: string)

  /** `pen` is where the turtle stands (writes happen there); `shown` is what it
      has written since its last `clear`, oldest first. */
  datatype Board = Board(score: nat, pen: Point, shown: seq<Text>)

  predicate IsDigit(c: char) {
    '0' as int <= c as int <= '9' as int
  }

  function DigitChar(d: nat): (c: char)
    requires d < 10
    ensures IsDigit(c)
  {
    ('0' as int + d) as char
  }

  /** Python's `str` of a non-negative integer. */
  function Decimal(n: nat): (s: string)
    ensures |s| >= 1
    ensures forall i :: 0 <= i < |s| ==> IsDigit(s[i])
    ensures s[0] == '0' ==> n == 0 && |s| == 1
    decreases n
  {
    if n < 10 then [DigitChar(n)] else Decimal(n / 10) + [DigitChar(n % 10)]
  }

  /** The value a string of decimal digits denotes, most significant first. */
  function DigitsValue(s: string): (n: nat)
    requires forall i :: 0 <= i < |s| ==> IsDigit(s[i])
  {
    if |s| == 0 then 0
    else
      assert IsDigit(s[|s| - 1]);
      10 * DigitsValue(s[..|s| - 1]) + (s[|s| - 1] as int - '0' as int)
  }

  /** `Decimal` writes the number it is given: reading its digits back yields it. */
  lemma {:induction false} DecimalRoundTrip(n: nat)
    ensures DigitsValue(Decimal(n)) == n
    decreases n
  {
    if n >= 10 {
      var s := Decimal(n);
      assert s[..|s| - 1] == Decimal(n / 10);
      DecimalRoundTrip(n / 10);
    }
  }

  /** The text `update_scoreboard` writes: f"Score: {score}". */
  function ScoreText(n: nat): (t: string)
    ensures |t| > |ScorePrefix| && t[..|ScorePrefix|] == ScorePrefix
    ensures forall i :: |ScorePrefix| <= i < |t| ==> IsDigit(t[i])
    ensures DigitsValue(t[|ScorePrefix|..]) == n
    ensures t[|ScorePrefix|] == '0' ==> n == 0 && |t| == |ScorePrefix| + 1
  {
    DecimalRoundTrip(n);
    assert (ScorePrefix + Decimal(n))[|ScorePrefix|..] == Decimal(n);
    ScorePrefix + Decimal(n)
  }

  /** The displayed score text determines the score. */
  lemma ScoreTextInjective(a: nat, b: nat)
    requires ScoreText(a) == ScoreText(b)
    ensures a == b
  {
    assert ScoreText(a)[|ScorePrefix|..] == ScoreText(b)[|ScorePrefix|..];
  }

  /** `t` is "Score: " followed by the decimal digits of `n`, without leading zeros. */
  predicate DenotesScore(t: string, n: nat) {
    && |t| > |ScorePrefix|
    && t[..|ScorePrefix|] == ScorePrefix
    && (forall i :: |ScorePrefix| <= i < |t| ==> IsDigit(t[i]))
    && DigitsValue(t[|ScorePrefix|..]) == n
    && (t[|ScorePrefix|] == '0' ==> |t| == |ScorePrefix| + 1)
  }

  /** The board's oldest shown text is the text of its current score. */
  predicate ShowsScore(b: Board) {
    |b.shown| >= 1 && DenotesScore(b.shown[0].content, b.score)
  }

  /** A digit string with a leading digit other than '0' denotes at least that digit. */
  lemma {:induction false} LeadingDigitBound(s: string)
    requires |s| >= 1 && forall i :: 0 <= i < |s| ==> IsDigit(s[i])
    ensures DigitsValue(s) >= s[0] as int - '0' as int
    decreases |s|
  {
    if |s| > 1 {
      var p := s[..|s| - 1];
      assert p[0] == s[0];
      LeadingDigitBound(p);
    }
  }

  /** A digit string without leading zeros is the decimal of its value. */
  lemma {:induction false} CanonicalDigits(s: string)
    requires |s| >= 1 && forall i :: 0 <= i < |s| ==> IsDigit(s[i])
    requires s[0] == '0' ==> |s| == 1
    ensures s == Decimal(DigitsValue(s))
    decreases |s|
  {
    var n := DigitsValue(s);
    var c := s[|s| - 1];
    var d := c as int - '0' as int;
    if |s| == 1 {
      assert s[..0] == [];
      assert DigitsValue(s[..0]) == 0;
      assert IsDigit(c) && 0 <= d < 10;
      assert n == d;
      assert DigitChar(d) as int == c as int;
    } else {
      var p := s[..|s| - 1];
      assert p[0] == s[0] && p[0] != '0';
      LeadingDigitBound(p);
      CanonicalDigits(p);
      assert n == 10 * DigitsValue(p) + d && n >= 10;
      assert n / 10 == DigitsValue(p) && n % 10 == d;
      assert IsDigit(c) && 0 <= d < 10;
      assert DigitChar(d) as int == c as int;
      assert s == p + [c];
    }
  }

  /** The display predicate describes exactly the text `f"Score: {score}"`. */
  lemma DenotesScoreIff(t: string, n: nat)
    ensures DenotesScore(t, n) <==> t == ScoreText(n)
  {
    if DenotesScore(t, n) {
      var digits := t[|ScorePrefix|..];
      assert digits[0] == t[|ScorePrefix|];
      CanonicalDigits(digits);
      assert t == t[..|ScorePrefix|] + digits;
      assert ScoreText(n) == ScorePrefix + Decimal(n);
    }
  }

  /** `update_scoreboard`: clear everything written before, then write the score
      text where the turtle stands. */
  function UpdateScoreboard(b: Board): (r: Board)
    ensures r.score == b.score && r.pen == b.pen
    ensures |r.shown| == 1 && r.shown[0].at == b.pen
    ensures ShowsScore(r)
  {
    Board(b.score, b.pen, [Text(b.pen, ScoreText(b.score))])
  }

  /** The constructor: score 0, turtle moved to (0, heightBoundary - 40), score written. */
  function NewBoard(screen: GameScreen): (r: Board)
    ensures r.score == 0
    ensures r.pen == Point(0, HeightBoundary(screen) - ScoreDrop)
    ensures r.shown == [Text(r.pen, "Score: 0")]
    ensures ShowsScore(r)
  {
    assert DigitChar(0) == '0';
    assert ScoreText(0) == "Score: 0";
    UpdateScoreboard(Board(0, Point(0, HeightBoundary(screen) - ScoreDrop), []))
  }

  /** `increase_score`: one more point, and the only text shown is the new score's. */
  function IncreaseScore(b: Board): (r: Board)
    ensures r.score == b.score + 1
    ensures r.pen == b.pen
    ensures |r.shown| == 1 && r.shown[0].at == b.pen
    ensures ShowsScore(r)
  {
    UpdateScoreboard(b.(score := b.score + 1))
  }

  /** `game_over`: move to the origin and write "GAME OVER" there; the score is
      untouched and nothing written earlier is cleared, so a shown score stays shown. */
  function GameOver(b: Board): (r: Board)
    ensures r.score == b.score
    ensures r.pen == Origin
    ensures |r.shown| == |b.shown| + 1 && r.shown[..|b.shown|] == b.shown
    ensures r.shown[|b.shown|] == Text(Origin, GameOverText)
    ensures ShowsScore(b) ==> ShowsScore(r)
  {
    Board(b.score, Origin, b.shown + [Text(Origin, GameOverText)])
  }

  /** `count` game-over texts written at the origin. */
  function GameOverTexts(count: nat): (t: seq<Text>)
    ensures |t| == count
    ensures forall i :: 0 <= i < count ==> t[i] == Text(Origin, GameOverText)
  {
    seq(count, _ => Text(Origin, GameOverText))
  }

  lemma GameOverTextsAdd(a: nat, b: nat)
    ensures GameOverTexts(a) + GameOverTexts(b) == GameOverTexts(a + b)
  {
  }

  /** `game_over` called `count` times in a row. */
  function GameOverRepeated(b: Board, count: nat): (r: Board)
    ensures r.score == b.score
    ensures r.pen == if count == 0 then b.pen else Origin
    ensures r.shown == b.shown + GameOverTexts(count)
    decreases count
  {
    if count == 0 then b else GameOverRepeated(GameOver(b), count - 1)
  }
}

=== FILE: screen.dfy ===
/**
 The game screen's boundary geometry (custom_game_screen.py): the boundary
 is half the dimension, rounded down, minus a fixed margin.
 */
module Screen {
  import opened Geometry

  /** Distance kept between a boundary and the window edge. */
  const Margin := 20

  const DefaultWidth := 600
  const DefaultHeight := 600

  datatype GameScreen = GameScreen(width: int, height: int)

  const DefaultScreen := GameScreen(DefaultWidth, DefaultHeight)

  /** The largest |y| a playing head may have; Python's `height // 2 - 20`. */
  function HeightBoundary(s: GameScreen): (b: int)
    ensures 2 * (b + Margin) <= s.height < 2 * (b + Margin) + 2
  {
    s.height / 2 - Margin
  }

  /** The largest |x| a playing head may have; Python's `width // 2 - 20`. */
  function WidthBoundary(s: GameScreen): (b: int)
    ensures 2 * (b + Margin) <= s.width < 2 * (b + Margin) + 2
  {
    s.width / 2 - Margin
  }

  /** The closed rectangle food spawns in and a head may occupy without hitting a wall. */
  predicate InsideBoundary(s: GameScreen, p: Point) {
    && -WidthBoundary(s) <= p.x <= WidthBoundary(s)
    && -HeightBoundary(s) <= p.y <= HeightBoundary(s)
  }

  /** The rectangle is non-empty exactly when both dimensions are at least twice the margin. */
  predicate Playable(s: GameScreen) {
    WidthBoundary(s) >= 0 && HeightBoundary(s) >= 0
  }

  lemma PlayableIff(s: GameScreen)
    ensures Playable(s) <==> s.width >= 2 * Margin && s.height >= 2 * Margin
    ensures Playable(s) <==> InsideBoundary(s, Origin)
  {
  }

  lemma DefaultBoundaries()
    ensures WidthBoundary(DefaultScreen) == 280
    ensures HeightBoundary(DefaultScreen) == 280
  {
  }

  /** Floor division: an odd dimension gives the same boundary as the even one below it. */
  lemma OddDimensionRoundsDown(k: int)
    ensures WidthBoundary(GameScreen(2 * k + 1, 0)) == WidthBoundary(GameScreen(2 * k, 0)) == k - Margin
    ensures HeightBoundary(GameScreen(0, 2 * k + 1)) == HeightBoundary(GameScreen(0, 2 * k)) == k - Margin
  {
  }

  lemma Dimension601RoundsDown()
    ensures WidthBoundary(GameScreen(601, 601)) == WidthBoundary(DefaultScreen)
    ensures HeightBoundary(GameScreen(601, 601)) == HeightBoundary(DefaultScreen)
  {
  }

  lemma BoundariesMonotone(s: GameScreen, t: GameScreen)
    requires s.width <= t.width && s.height <= t.height
    ensures WidthBoundary(s) <= WidthBoundary(t)
    ensures HeightBoundary(s) <= HeightBoundary(t)
  {
  }
}

=== FILE: snake.dfy ===
/**
 The snake of game_configuration.py (class GamePlay): an ordered sequence of
 segments, head first and tail last, with construction, growth, movement and
 the four direction commands.
 */
module Snake {
  import opened Wrappers
  import opened Geometry

  /** Horizontal gap between consecutive segments at construction. */
  const SegmentGap := 20

  /** One segment turtle: its position and its heading. */
  datatype Segment = Segment(pos: Point, heading: Heading)

  /** Index 0 is the head, the last index is the tail. */
  type Body = seq<Segment>

  function Head(s: Body): (head: Segment)
    requires |s| >= 1
  {
    s[0]
  }

  function Tail(s: Body): (tail: Segment)
    requires |s| >= 1
  {
    s[|s| - 1]
  }

  /** The k-th segment laid out by construction; a fresh turtle faces heading 0. */
  function LaidOut(k: int): (seg: Segment) {
    Segment(Point(-SegmentGap * k, 0), Right)
  }

  /** The body construction produces: `nrSegments` segments in a row, or a failure
      when there is no segment to become the head. */
  function Construct(nrSegments: int): (r: Option<Body>) {
    if nrSegments <= 0 then None
    else Some(seq(nrSegments, k => LaidOut(k)))
  }

  /** `_construct_snake`, following its loop: place a segment at (x, 0), then step x left. */
  method ConstructSnake(nrSegments: int) returns (r: Option<Body>)
    ensures r == Construct(nrSegments)
    ensures r.None? <==> nrSegments <= 0
    ensures r.Some? ==> |r.value| == nrSegments
    ensures r.Some? ==> forall k :: 0 <= k < |r.value| ==> r.value[k].pos == Point(-20 * k, 0)
    ensures r.Some? ==> Head(r.value).pos == Origin
    ensures r.Some? ==> Tail(r.value).pos == Point(-20 * (nrSegments - 1), 0)
  {
    var segments: Body := [];
    var x := 0;
    var i := 0;
    while i < nrSegments
      invariant 0 <= i
      invariant i == 0 || i <= nrSegments
      invariant |segments| == i
      invariant x == -SegmentGap * i
      invariant forall k :: 0 <= k < i ==> segments[k] == LaidOut(k)
    {
      segments := segments + [Segment(Point(x, 0), Right)];
      x := x - SegmentGap;
      i := i + 1;
    }
    if |segments| == 0 {
      // `_construct_snake` raises IndexError at `segments[0]`
      return None;
    }
    assert segments == seq(nrSegments, k => LaidOut(k));
    r := Some(segments);
  }

  /** `extend_snake`: a new segment appears on the tail's position and becomes the tail. */
  function Extend(s: Body): (r: Body)
    requires |s| >= 1
    ensures |r| == |s| + 1
    ensures r[..|s|] == s
    ensures Tail(r).pos == Tail(s).pos
    ensures Tail(r).heading == Right
    ensures Head(r) == Head(s)
  {
    s + [Segment(Tail(s).pos, Right)]
  }

  /** The body after `move_snake`: each trailing segment takes its predecessor's old
      position, every segment takes the head's heading, and the head advances. */
  function Move(s: Body, distance: int): (r: Body)
    requires |s| >= 1
  {
    seq(|s|, i requires 0 <= i < |s| =>
      if i == 0 then Segment(Advance(s[0].pos, s[0].heading, distance), s[0].heading)
      else Segment(s[i - 1].pos, s[0].heading))
  }

  /** `move_snake`, following its three steps in order: positions from the tail
      backward, headings from index 1 forward, then the head moves. */
  method MoveSnake(s: Body, distance: int) returns (r: Body)
    requires |s| >= 1
    ensures r == Move(s, distance)
    ensures |r| == |s|
    ensures forall i :: 1 <= i < |s| ==> r[i].pos == s[i - 1].pos
    ensures forall i :: 0 <= i < |s| ==> r[i].heading == Head(s).heading
    ensures Head(r).pos == Advance(Head(s).pos, Head(s).heading, distance)
  {
    r := s;
    var i := |r| - 1;
    while i > 0
      invariant 0 <= i < |s|
      invariant |r| == |s|
      invariant forall k :: 0 <= k <= i ==> r[k] == s[k]
      invariant forall k :: i < k < |s| ==> r[k] == Segment(s[k - 1].pos, s[k].heading)
    {
      r := r[i := Segment(r[i - 1].pos, r[i].heading)];
      i := i - 1;
    }
    var j := 1;
    while j < |r|
      invariant 1 <= j <= |s|
      invariant |r| == |s|
      invariant r[0] == s[0]
      invariant forall k :: 1 <= k < j ==> r[k] == Segment(s[k - 1].pos, s[0].heading)
      invariant forall k :: j <= k < |s| ==> r[k] == Segment(s[k - 1].pos, s[k].heading)
    {
      // reads r[j - 1] after this loop has already overwritten it
      r := r[j := Segment(r[j].pos, r[j - 1].heading)];
      j := j + 1;
    }
    r := r[0 := Segment(Advance(r[0].pos, r[0].heading, distance), r[0].heading)];
  }

  /** The shared shape of `up`, `down`, `left` and `right`: face `h` unless the head
      faces the opposite way. */
  function Turn(s: Body, h: Heading): (r: Body)
    requires |s| >= 1
    ensures |r| == |s| && r[1..] == s[1..]
    ensures Head(r).pos == Head(s).pos
    ensures Head(r).heading == h || (Head(r) == Head(s) && Head(s).heading == h.Opposite())
    ensures Head(r).heading != Head(s).heading.Opposite()
  {
    if Head(s).heading == h.Opposite() then s
    else s[0 := Segment(Head(s).pos, h)]
  }

  /** `up`: heading 90 unless the head faces 270. */
  function TurnUp(s: Body): (r: Body)
    requires |s| >= 1
    ensures |r| == |s| && r[1..] == s[1..] && Head(r).pos == Head(s).pos
    ensures Head(r).heading == if Head(s).heading == Down then Down else Up
    ensures Head(s).heading == Down ==> r == s
  {
    Turn(s, Up)
  }

  /** `down`: heading 270 unless the head faces 90. */
  function TurnDown(s: Body): (r: Body)
    requires |s| >= 1
    ensures |r| == |s| && r[1..] == s[1..] && Head(r).pos == Head(s).pos
    ensures Head(r).heading == if Head(s).heading == Up then Up else Down
    ensures Head(s).heading == Up ==> r == s
  {
    Turn(s, Down)
  }

  /** `left`: heading 180 unless the head faces 0. */
  function TurnLeft(s: Body): (r: Body)
    requires |s| >= 1
    ensures |r| == |s| && r[1..] == s[1..] && Head(r).pos == Head(s).pos
    ensures Head(r).heading == if Head(s).heading == Right then Right else Left
    ensures Head(s).heading == Right ==> r == s
  {
    Turn(s, Left)
  }

  /** `right`: heading 0 unless the head faces 180. */
  function TurnRight(s: Body): (r: Body)
    requires |s| >= 1
    ensures |r| == |s| && r[1..] == s[1..] && Head(r).pos == Head(s).pos
    ensures Head(r).heading == if Head(s).heading == Left then Left else Right
    ensures Head(s).heading == Left ==> r == s
  {
    Turn(s, Right)
  }

  /** Giving the same command twice is the same as giving it once. */
  lemma TurnIdempotent(s: Body, h: Heading)
    requires |s| >= 1
    ensures Turn(Turn(s, h), h) == Turn(s, h)
  {
  }

  /** The guard looks only at the current head heading, so two commands between
      ticks can reverse the snake: facing 0, `up` then `left` faces 180. */
  lemma TwoTurnsReverse(s: Body)
    requires |s| >= 1 && Head(s).heading == Right
    ensures Head(TurnLeft(TurnUp(s))).heading == Head(s).heading.Opposite()
  {
  }
}

=== FILE: wrappers.dfy ===
/** Failure-carrying result types used where the game's Python code raises. */
module Wrappers {

  /** A value that may be missing; `None` stands for a raised exception. */
  datatype Option<+T> = None | Some(value: T)

  /** A value or the error that prevented computing it. */
  datatype Result<+T, +E> = Ok(value: T) | Err(error: E)
}
